=== FILE: README.md ===
# Flappy-bird game core in Dafny

This project models the simulation core of a small pygame arcade game,
"Oiseau Battant Ultime 2000" (`testfinal.py`), and the physics demo it grew
from (`main.py`). The game's module-level globals and pygame objects become
immutable datatypes and pure functions:

- `Bird` — the player: gravity 0.5, jump to velocity −8, floor clamp against
  the previous sprite rectangle, the rectangle rebuilt around the truncated
  position each frame.
- `Pipes` — a pipe pair: gap geometry from a random gap centre, advance by −3
  per frame, one-shot pass scoring with the high-score update, pruning.
- `Clouds` — decorative clouds: spawn past the right edge, drift left, pruned
  below x = −1000.
- `Collision` — `check_collision`: the player's rectangle shrunk by 25 × 15
  against each pipe segment shrunk by 10 horizontally.
- `Game` — the main loop as `Step(world, events, rotatedSpriteSize)`: events in
  queue order (jump or restart on Space/Up, spawns only while active, quit),
  then, while active, physics, scoring, pruning and the game-over test.
- `Physics` — the ball of `main.py`: gravity, jump to −10 on any key, floor clamp.
- `Geometry`, `Seqs`, `Config` — rectangles, order-preserving filtering, screen size.

Randomness (gap centre, cloud draws, timer delays), timer ticks and the size of
the rotated sprite are explicit inputs. The high score read from the save file
is an input of `Game.Initial`; writing the file is the `SaveHighScore` effect a
frame emits, and re-arming the cloud timer is the `RearmCloudTimer` effect.

Positions and velocities of the player are `real`. In the source they are
floats, but every value they take is a multiple of 0.5 and is represented
exactly, so the model's arithmetic agrees with the source's.

Three details of the code that the model follows:

- There is no ceiling clamp. `Player.update` sets `rect.top = 0` on the old
  rectangle, which is rebuilt a few lines later, so only the velocity zeroing
  survives. That test reads the previous frame's rectangle, and
  `Game.CeilingTestNeverFires` shows it never fires in a reachable active world.
- The game ends when the rebuilt rectangle's top is negative (above the screen) or its bottom reaches
  400, and when the tolerant collision test hits.
- The cloud timer is re-armed with a delay from [2000, 5000] ms.

## Model

| member | source | states |
|---|---|---|
| Geometry.Trunc | testfinal.py:174 | `int(y)` truncates toward zero: the result is within one of y, on y's side of zero |
| Geometry.CenteredAt | testfinal.py:147 | `get_rect(center=…)` keeps the size and puts the centre within half a pixel of the point |
| Geometry.Inflate | testfinal.py:180-184 | inflate changes the size by exactly the amounts and moves the centre by at most half a pixel |
| Geometry.OverlapsIffSharedPixel | testfinal.py:186 | the rectangle overlap test holds iff some pixel lies in both rectangles |
| Geometry.ShrinkStaysInside | testfinal.py:180-184 | shrinking a rectangle by non-negative amounts yields a rectangle inside it |
| Bird.Start | testfinal.py:140-155 | the start and reset player has no velocity or tilt and a sprite box centred on it, inside the screen |
| Bird.Update | testfinal.py:160-172 | x kept; y never below the floor bound; at the floor y is the bound and velocity 0; otherwise gravity is added before the move; an old box above the screen zeroes velocity |
| Bird.UpdateRecentres | testfinal.py:173-174 | the new sprite box has the rotated sprite's size and is centred, within half a pixel, on x and the truncated y |
| Bird.JumpOverwrites | testfinal.py:157-158 | jumping gives velocity −8 whatever the previous velocity |
| Bird.RestingStaysPut | testfinal.py:164-166 | at the floor bound with zero velocity, an update leaves y and velocity unchanged |
| Pipes.NewPipe | testfinal.py:113-128 | a new pipe is unpassed at the start x; top height is centre − 70, the bottom starts at centre + 70, top + 140 + bottom = screen height, both at least 50 |
| Pipes.CentreTwoHundred | testfinal.py:119-128 | centre 200 on a 400-pixel screen gives heights 130 and 130 and bottom y 270 |
| Pipes.Advance | testfinal.py:130-133 | x decreases by 3, both segments take the new x, their other geometry and the passed flag are unchanged |
| Pipes.AdvanceKeepsWellFormed | testfinal.py:130-133 | advancing keeps the pipe geometry invariant |
| Pipes.FrameKeepsWellFormed | testfinal.py:252-267 | after a frame's loop and cleanup every pipe still has the geometry of a new pipe |
| Pipes.ProcessPipes | testfinal.py:253-263 | every pipe advances; its passed flag becomes set iff it was set or the player's left edge is past the top segment's right edge; the score rises by the number of newly passed pipes; the high score becomes max(high, score) iff something scored; the saved values are exactly the scores above the previous high score, in order |
| Pipes.AwardSaves | testfinal.py:259-263 | a scoring event saves its score exactly when that score is the next value above both the old score and the old high score |
| Pipes.PassHighScore | testfinal.py:257-263 | in one frame the high score never drops and only becomes the score; each saved value beats the old high score; the saved values strictly increase; the last save is the new high score |
| Pipes.ScoresAtMostOnce | testfinal.py:257-259 | over any run of frames one pipe adds 0 or 1 points, and 1 iff its passed flag went from false to true |
| Pipes.StaysPassed | testfinal.py:257-258 | a passed pipe stays passed and never scores again |
| Pipes.ScoresExactlyOnce | testfinal.py:257-259 | a fresh pipe crossed in the first frame adds exactly one point over any number of frames |
| Pipes.PrunePipes | testfinal.py:265-267 | a pipe survives iff its right edge x + 60 is not left of 0 |
| Pipes.PruneKeepsOrder | testfinal.py:265-267 | pruning keeps survivors in their original order |
| Seqs.FilterIdempotent | testfinal.py:245-250 | a second cleanup pass removes nothing more |
| Clouds.NewCloud | testfinal.py:76-82 | a new cloud starts past the right edge, in the upper half, moving left at 0.5 to 1.5 per frame |
| Clouds.InitialCloud | testfinal.py:208-211 | the start-up clouds lie over the screen and drift left |
| Clouds.Advance | testfinal.py:97-98 | a drifting cloud moves left by 0.5 to 1.5 pixels and keeps its height and speed |
| Clouds.PruneClouds | testfinal.py:245-250 | a cloud survives iff x ≥ −1000 |
| Clouds.FrameKeepsDrifting | testfinal.py:245-250 | after a frame's drift and cleanup every cloud still moves left at 0.5 to 1.5 per frame |
| Clouds.PruneKeepsOrder | testfinal.py:245-250 | the same law as Pipes.PruneKeepsOrder, for the cloud list |
| Collision.CheckCollision | testfinal.py:179-188 | the scan reports a hit iff some pipe's shrunk top or bottom segment overlaps the shrunk player box |
| Collision.OrderIndependent | testfinal.py:182-188 | any reordering of the pipe list (the same multiset of pipes) gives the same answer |
| Collision.HitMeansTouching | testfinal.py:179-188 | a hit implies the unshrunk player box overlaps a segment |
| Collision.ToleranceExamples | testfinal.py:180-186 | boxes overlapping only inside the margins do not collide; boxes whose hitboxes overlap do |
| Game.Initial | testfinal.py:203-214 | the first world is active and running, has score 0, no pipes, the loaded high score, the same start player that a restart restores, the three start-up clouds built from their draws and positions, and satisfies the invariant |
| Game.Restart | testfinal.py:225-229 | a restart is active with no pipes, score 0 and the start player, keeps clouds, high score and running flag, and satisfies the invariant whenever the clouds drift |
| Game.HandleEvent | testfinal.py:217-238 | one event keeps the high score; only a quit clears the running flag; only a cloud spawn while active emits its re-arm; only Space/Up changes the player, score or active flag, and it always leaves the game active with the clouds unchanged; quit, other keys and other events leave both lists unchanged |
| Game.HandleEvents | testfinal.py:217-238 | the event loop keeps the invariant and the high score, changes the score only by a reset to 0, and emits only timer re-arms; the loop keeps running unless a quit is queued |
| Game.Simulate | testfinal.py:242-278 | game over leaves the world unchanged; an active frame ends in game over iff collision, top < 0 or bottom ≥ 400; the score never drops; the high score becomes max(high, score) when points are scored; every surviving pipe still reaches the screen and every surviving cloud is within the cleanup bound x ≥ −1000; the rotated sprite is at least 30 by 30 |
| Game.ActionKeyJumps | testfinal.py:221-224 | Space/Up while active sets the velocity to −8 and changes nothing else |
| Game.ActionKeyRestarts | testfinal.py:225-229 | Space/Up after game over: active, no pipes, the player is the freshly started player, including its sprite rectangle, so at the start point with velocity 0 and angle 0; score 0; clouds and high score kept |
| Game.SpawnOnlyWhileActive | testfinal.py:231-238 | while active a pipe timer appends exactly the new pipe for its drawn centre at x = 800, and a cloud timer appends exactly the new cloud for its draws and re-arms itself with the drawn delay, all else unchanged; after game over neither changes anything |
| Game.HandleEventKeepsInv | testfinal.py:221-238 | a jump, restart, spawn or quit keeps the world invariant |
| Game.EventsWhileOver | testfinal.py:216-238 | after game over, events without Space/Up change only the running flag |
| Game.FrozenWhileOver | testfinal.py:242-278 | after game over, a frame without Space/Up moves nothing, spawns nothing and saves nothing |
| Game.Step | testfinal.py:216-278 | the loop keeps running unless a quit is queued, and each frame keeps well-formed pipes, drifting clouds, an on-screen box while active, and score ≤ high score once anything is scored |
| Game.SimulateKeepsInv | testfinal.py:242-272 | the active half of a frame keeps the invariant |
| Game.CeilingTestNeverFires | testfinal.py:167-169 | in a reachable active world an update off the floor adds exactly the gravity, so the ceiling test is dead |
| Game.StepHighScore | testfinal.py:257-263 | in a frame the high score never drops and only becomes the score; each saved value beats the old high score; the saved values strictly increase; the last save is the new high score |
| Game.SimulateHighScore | testfinal.py:257-263 | the same for the active half of a frame |
| Game.SessionHighScore | testfinal.py:257-263 | after any run of frames the high score is the larger of the loaded value and the best score reached |
| Physics.Update | main.py:38-48 | x and radius kept; y never below 400 − radius; when the clamp fires y is the bound and velocity 0 |
| Physics.Start | main.py:61-66 | the demo's ball starts at x = 150 with radius 20 and no velocity, above the floor and not at rest |
| Physics.Tick | main.py:72-83 | one loop iteration keeps x and radius and the ball not below the floor; without a key press it is one physics frame; with one, a ball clear of the floor ends moving up at 9.5 |
| Physics.StartComesToRest | main.py:61-83 | the demo's ball left alone comes to rest on the floor after some positive number of frames |
| Physics.HandleEvents | main.py:72-80 | a frame with a key press leaves the ball jumped, one without leaves it unchanged |
| Physics.JumpOverwrites | main.py:33-36 | jumping gives velocity −10 whatever the previous velocity |
| Physics.GravityBeforeMove | main.py:29-43 | off the floor a frame adds 0.5 to the velocity, then moves by the new velocity |
| Physics.RestIsFixedPoint | main.py:46-48 | resting on the floor with zero velocity is a fixed point |
| Physics.RestStaysRest | main.py:46-48 | a resting ball stays at rest for any number of frames |
| Physics.FreeFall | main.py:29-43 | until the clamp fires, the velocity after n frames is the initial velocity plus n × 0.5 |
| Physics.EventuallyRests | main.py:38-48 | a ball not below the floor with no input comes to rest on the floor after finitely many frames |

## Left out

- Drawing: sprites, the placeholder surfaces, fonts, the score text, the game-over overlay, screen colours and `pygame.display`.
- Image loading, scaling, flipping and rotation. These are pygame calls. The rotated sprite's size is an input of `Game.Step` and `Bird.Update`. `Bird.Update` accepts any size; `Game.Simulate`, `Game.Step` and `Game.ValidInputs` require `Bird.RotatedSize`.
- The save file: creating it, reading it and parsing it with `int()`. The loaded high score is an input, and a write is the `SaveHighScore` effect. A failed write has no model.
- Timers, the frame clock and `random`. Their values come in as event contents. The first cloud-timer delay, drawn from [2000, 4000] at start-up, is not modelled.
- pygame's `Rect`: the model assumes `inflate` halves its amounts with C division, truncating toward zero. It also assumes `colliderect` is a strict overlap of non-empty rectangles. pygame normalises rectangles of negative size. Such sizes cannot arise here: a rotation of the 40 by 30 sprite is at least 30 pixels on each side (`Bird.RotatedSize`, required of every frame's input), so the shrunk player box is at least 5 by 15 pixels, and the shrunk pipe segments are 50 wide and at least 50 high.
- The tilt angle is eased with the exact `real` 0.1, where the source uses a float. The angle has no effect on gameplay.
- Cloud positions and speeds are exact reals, where the source rounds them as floats. Clouds have no effect on gameplay.
- The demo's QUIT event and its loop flag (main.py:72-74), and the unused abstract `GameObject` class (main.py:16-19).
- The game's QUIT ends the loop after the current frame. The model records this in the `running` flag and does not model the exit itself.
- Game.SessionHighScore: requires a loaded high score of at least 0. The save file is only ever written with non-negative scores, but `int()` would also accept a hand-edited negative value such as -5. From −5, a session in which nothing is scored ends with the high score still −5, while max(loaded, best) is 0, so the law fails in the source too.
- Bird.Update: the floor bound reads the height of the previous sprite rectangle, which is part of the player's state here. How that height depends on the rotation angle is not modelled.

=== FILE: bird.dfy ===
/** The arcade game's player (class Player of testfinal.py): gravity, jump,
    floor clamp and the sprite rectangle rebuilt around the position each frame.
    The size of the rotated sprite comes from the image library and is an input. */
module Bird {
  import opened Geometry
  import opened Config

  const Gravity: real := 0.5
  const JumpStrength: real := -8.0
  /** Size of the unrotated sprite, with or without the image file. */
  const Sprite: Size := Size(40, 30)
  const StartX: int := ScreenWidth / 4
  const StartY: int := ScreenHeight / 2

  /** Sizes the bounding box of the rotated sprite can have: turning the
      40 by 30 sprite by any angle gives a box at least 30 pixels on each side. */
  predicate RotatedSize(s: Size) {
    s.width >= Sprite.height && s.height >= Sprite.height
  }

  /** `box` is the sprite rectangle as last rebuilt; the next update reads its
      height for the floor bound and its top for the ceiling test. */
  datatype Player = Player(x: int, y: real, velocity: real, angle: real, box: Rect)

  /** The player as constructed, and as restored by `reset`. */
  function Start(): (p: Player)
    ensures p.box == CenteredAt(p.x, Trunc(p.y), Sprite)
    ensures 0 <= p.box.top && p.box.Bottom() < ScreenHeight
    ensures p.velocity == 0.0 && p.angle == 0.0
  {
    Player(StartX, StartY as real, 0.0, 0.0, CenteredAt(StartX, StartY, Sprite))
  }

  /** Jumping overwrites the vertical velocity. */
  function Jump(p: Player): Player {
    p.(velocity := JumpStrength)
  }

  /** Lowest centre height the previous sprite rectangle allows. */
  function FloorY(p: Player): int {
    ScreenHeight - p.box.height / 2
  }

  /** One frame of `Player.update`: gravity, move, floor clamp, the ceiling test
      on the previous rectangle (which only zeroes the velocity, because the
      rectangle is rebuilt afterwards), tilt easing, and the new rectangle
      centred on the truncated position with the rotated sprite's size. */
  function Update(p: Player, rotated: Size): (r: Player)
    ensures r.x == p.x
    ensures r.y <= FloorY(p) as real
    ensures p.y + p.velocity + Gravity > FloorY(p) as real ==>
              r.y == FloorY(p) as real && r.velocity == 0.0
    ensures p.y + p.velocity + Gravity <= FloorY(p) as real ==>
              r.y == p.y + p.velocity + Gravity
    ensures 0 <= p.box.top && p.y + p.velocity + Gravity <= FloorY(p) as real ==>
              r.velocity == p.velocity + Gravity
    ensures p.box.top < 0 ==> r.velocity == 0.0
  {
    var v := p.velocity + Gravity;
    var y := p.y + v;
    var floor := FloorY(p) as real;
    var (y1, v1) := if y > floor then (floor, 0.0) else (y, v);
    var v2 := if p.box.top < 0 then 0.0 else v1;
    var target := -v2 * 3.0;
    var angle := p.angle + (target - p.angle) * 0.1;
    Player(p.x, y1, v2, angle, CenteredAt(p.x, Trunc(y1), rotated))
  }

  /** After an update the sprite rectangle has the rotated sprite's size and is
      centred, to within half a pixel, on the truncated position. */
  lemma UpdateRecentres(p: Player, rotated: Size)
    ensures var r := Update(p, rotated);
            && r.box.width == rotated.width && r.box.height == rotated.height
            && 0 <= 2 * r.box.left + r.box.width - 2 * r.x <= 1
            && 0 <= 2 * r.box.top + r.box.height - 2 * Trunc(r.y) <= 1
  {
  }

  /** A jump sets the velocity to the jump strength whatever it was before:
      two players that differ only in velocity are equal after jumping. */
  lemma JumpOverwrites(p: Player, v: real)
    ensures Jump(p.(velocity := v)) == Jump(p)
    ensures Jump(p).velocity == JumpStrength
  {
  }

  /** Resting on the floor with no velocity is a fixed point of the physics. */
  lemma RestingStaysPut(p: Player, rotated: Size)
    requires p.y == FloorY(p) as real && p.velocity == 0.0
    ensures Update(p, rotated).y == p.y && Update(p, rotated).velocity == 0.0
  {
  }
}

=== FILE: clouds.dfy ===
/** Background clouds (class Cloud of testfinal.py): spawned past the right
    edge, drifting left at their own speed, removed far past the left edge.
    Their image and scale only affect drawing and are not modelled. */
module Clouds {
  import Seqs

  /** Clouds are removed once x drops below this, far past the left edge. */
  const FarLeft: real := -1000.0

  datatype Cloud = Cloud(x: real, y: int, speed: real)

  /** The random draws for one cloud: the horizontal offset past the screen
      edge, the height, and the speed magnitude. */
  datatype CloudDraw = CloudDraw(offset: int, y: int, speed: real)

  /** The ranges of `randint(10, 100)`, `randint(0, h // 2)` and `uniform(0.5, 1.5)`. */
  predicate ValidDraw(d: CloudDraw, screenHeight: int) {
    10 <= d.offset <= 100 && 0 <= d.y <= screenHeight / 2 && 0.5 <= d.speed <= 1.5
  }

  /** A cloud moves left, between half a pixel and a pixel and a half per frame. */
  predicate Drifting(c: Cloud) {
    -1.5 <= c.speed <= -0.5
  }

  /** A cloud spawned just past the right edge of a screen `screenWidth` wide. */
  function NewCloud(d: CloudDraw, screenWidth: int, screenHeight: int): (c: Cloud)
    requires ValidDraw(d, screenHeight)
    ensures screenWidth as real < c.x <= (screenWidth + 100) as real
    ensures 0 <= c.y <= screenHeight / 2
    ensures Drifting(c)
  {
    Cloud((screenWidth + d.offset) as real, d.y, -d.speed)
  }

  /** One of the clouds present at start-up: spawned as usual, then moved to
      the horizontal position `x`, drawn from [0, screenWidth]. */
  function InitialCloud(d: CloudDraw, x: int, screenWidth: int, screenHeight: int): (c: Cloud)
    requires ValidDraw(d, screenHeight) && 0 <= x <= screenWidth
    ensures 0.0 <= c.x <= screenWidth as real
    ensures Drifting(c)
  {
    NewCloud(d, screenWidth, screenHeight).(x := x as real)
  }

  /** One frame of `update`. */
  function Advance(c: Cloud): (r: Cloud)
    ensures Drifting(c) ==> c.x - 1.5 <= r.x <= c.x - 0.5
    ensures r.y == c.y && r.speed == c.speed
  {
    c.(x := c.x + c.speed)
  }

  function AdvanceAll(cs: seq<Cloud>): (r: seq<Cloud>)
    ensures |r| == |cs|
    ensures forall i :: 0 <= i < |cs| ==> r[i] == Advance(cs[i])
  {
    seq(|cs|, i requires 0 <= i < |cs| => Advance(cs[i]))
  }

  predicate Visible(c: Cloud) {
    c.x >= FarLeft
  }

  /** Removal of the clouds that have drifted past FarLeft. */
  function PruneClouds(cs: seq<Cloud>): (r: seq<Cloud>)
    ensures forall i :: 0 <= i < |r| ==> r[i] in cs && r[i].x >= FarLeft
    ensures forall i :: 0 <= i < |cs| && cs[i].x >= FarLeft ==> cs[i] in r
  {
    Seqs.Filter(cs, Visible)
  }

  /** A frame's drift and cleanup keep every cloud drifting left. */
  lemma FrameKeepsDrifting(cs: seq<Cloud>)
    requires forall i :: 0 <= i < |cs| ==> Drifting(cs[i])
    ensures var r := PruneClouds(AdvanceAll(cs));
            forall i :: 0 <= i < |r| ==> Drifting(r[i])
  {
    var moved := AdvanceAll(cs);
    assert forall i :: 0 <= i < |moved| ==> Drifting(moved[i]);
  }

  /** Pruning keeps the surviving clouds in their original order. */
  lemma PruneKeepsOrder(a: seq<Cloud>, b: seq<Cloud>)
    ensures PruneClouds(a + b) == PruneClouds(a) + PruneClouds(b)
  {
    Seqs.FilterConcat(a, b, Visible);
  }
}

=== FILE: collision.dfy ===
/** The tolerant collision test (`check_collision` in testfinal.py): the
    player's rectangle shrunk by 25 x 15 against every pipe segment shrunk by
    10 horizontally. */
module Collision {
  import opened Geometry
  import opened Pipes

  const PlayerShrinkX: int := 25
  const PlayerShrinkY: int := 15
  const SegmentShrinkX: int := 10

  function PlayerHitbox(box: Rect): Rect {
    Inflate(box, -PlayerShrinkX, -PlayerShrinkY)
  }

  function SegmentHitbox(segment: Rect): Rect {
    Inflate(segment, -SegmentShrinkX, 0)
  }

  /** The player's hitbox overlaps the hitbox of one of the pipe's segments. */
  predicate HitsPipe(box: Rect, p: Pipe) {
    Overlaps(PlayerHitbox(box), SegmentHitbox(p.top))
      || Overlaps(PlayerHitbox(box), SegmentHitbox(p.bottom))
  }

  /** The scan over the live pipes, stopping at the first hit. */
  function CheckCollision(box: Rect, pipes: seq<Pipe>): (hit: bool)
    ensures hit <==> exists i :: 0 <= i < |pipes| && HitsPipe(box, pipes[i])
  {
    if |pipes| == 0 then false
    else if HitsPipe(box, pipes[0]) then true
    else CheckCollision(box, pipes[1..])
  }

  /** The answer does not depend on the order of the pipes: any reordering
      of the list gives the same answer. */
  lemma OrderIndependent(box: Rect, a: seq<Pipe>, b: seq<Pipe>)
    requires multiset(a) == multiset(b)
    ensures CheckCollision(box, a) == CheckCollision(box, b)
  {
    if CheckCollision(box, a) {
      var i :| 0 <= i < |a| && HitsPipe(box, a[i]);
      assert a[i] in multiset(b);
      var j :| 0 <= j < |b| && b[j] == a[i];
    }
    if CheckCollision(box, b) {
      var j :| 0 <= j < |b| && HitsPipe(box, b[j]);
      assert b[j] in multiset(a);
      var i :| 0 <= i < |a| && a[i] == b[j];
    }
  }

  /** Tolerance only forgives: a hit always means the full rectangles overlap. */
  lemma HitMeansTouching(box: Rect, p: Pipe)
    requires HitsPipe(box, p)
    ensures Overlaps(box, p.top) || Overlaps(box, p.bottom)
  {
    ShrinkStaysInside(box, -PlayerShrinkX, -PlayerShrinkY);
    ShrinkStaysInside(p.top, -SegmentShrinkX, 0);
    ShrinkStaysInside(p.bottom, -SegmentShrinkX, 0);
    if Overlaps(PlayerHitbox(box), SegmentHitbox(p.top)) {
      OverlapWithinContainers(box, PlayerHitbox(box), p.top, SegmentHitbox(p.top));
    } else {
      OverlapWithinContainers(box, PlayerHitbox(box), p.bottom, SegmentHitbox(p.bottom));
    }
  }

  /** A player whose sprite rectangle overlaps a pipe's top segment only
      within the shrink margins is not hit, while one well inside the top
      segment is. */
  lemma ToleranceExamples()
    ensures var p := NewPipe(100, 400, 200);
            Overlaps(Rect(70, 60, 40, 30), p.top)
            && !CheckCollision(Rect(70, 60, 40, 30), [p])
    ensures CheckCollision(Rect(110, 60, 40, 30), [NewPipe(100, 400, 200)])
  {
    var p := NewPipe(100, 400, 200);
    assert !HitsPipe(Rect(70, 60, 40, 30), p);
    assert HitsPipe(Rect(110, 60, 40, 30), p);
  }
}

=== FILE: config.dfy ===
/** Screen constants shared by the arcade game (testfinal.py). */
module Config {
  const ScreenWidth: int := 800
  const ScreenHeight: int := 400
}

=== FILE: game.dfy ===
/** The main loop of testfinal.py as a pure step function: the queued events
    of a frame are handled in order, then, while the game is active, the
    physics, scoring, pruning and the game-over test run once. Random draws
    arrive inside the timer events; the save file is written through the
    SaveHighScore effects. */
module Game {
  import opened Geometry
  import opened Config
  import Bird
  import Pipes
  import Clouds
  import Collision

  datatype Key = Space | Up | OtherKey

  /** One queued event. A pipe-timer event carries the gap centre drawn for
      the pipe it spawns; a cloud-timer event carries the draws for its cloud
      and the delay drawn for re-arming the cloud timer. */
  datatype Event =
    | Quit
    | KeyDown(key: Key)
    | PipeTimer(gapCentre: int)
    | CloudTimer(draw: Clouds.CloudDraw, nextDelay: int)
    | OtherEvent

  /** What a frame asks of the outside world. */
  datatype Effect = SaveHighScore(value: int) | RearmCloudTimer(delay: int)

  datatype World = World(
    player: Bird.Player,
    pipes: seq<Pipes.Pipe>,
    clouds: seq<Clouds.Cloud>,
    score: int,
    highScore: int,
    active: bool,
    running: bool)

  datatype Outcome = Outcome(world: World, effects: seq<Effect>)

  /** Random draws lie in the ranges the game draws them from. */
  predicate ValidEvent(e: Event) {
    match e
    case PipeTimer(c) => Pipes.MinCentre() <= c <= Pipes.MaxCentre(ScreenHeight)
    case CloudTimer(d, delay) => Clouds.ValidDraw(d, ScreenHeight) && 2000 <= delay <= 5000
    case _ => true
  }

  predicate ValidEvents(es: seq<Event>) {
    forall i :: 0 <= i < |es| ==> ValidEvent(es[i])
  }

  /** Space or the up arrow: jump while active, restart after game over. */
  predicate IsActionKey(e: Event) {
    e.KeyDown? && e.key != OtherKey
  }

  /** What every reachable world satisfies. */
  predicate Inv(w: World) {
    && (forall i :: 0 <= i < |w.pipes| ==> Pipes.WellFormed(w.pipes[i], ScreenHeight))
    && (forall i :: 0 <= i < |w.clouds| ==> Clouds.Drifting(w.clouds[i]))
    && (w.active ==> 0 <= w.player.box.top && w.player.box.Bottom() < ScreenHeight)
    && 0 <= w.score
    && (w.score == 0 || w.score <= w.highScore)
  }

  /** The world at start-up: the loaded high score and three clouds spread
      over the screen. */
  function Initial(loadedHigh: int, draws: seq<Clouds.CloudDraw>, xs: seq<int>): (w: World)
    requires |draws| == 3 && |xs| == 3
    requires forall i :: 0 <= i < 3 ==> Clouds.ValidDraw(draws[i], ScreenHeight)
    requires forall i :: 0 <= i < 3 ==> 0 <= xs[i] <= ScreenWidth
    ensures Inv(w)
    ensures w.active && w.running && w.score == 0 && w.pipes == [] && |w.clouds| == 3
    ensures w.highScore == loadedHigh
    ensures w.player == Bird.Start()
    ensures forall i :: 0 <= i < 3 ==>
              w.clouds[i] == Clouds.InitialCloud(draws[i], xs[i], ScreenWidth, ScreenHeight)
  {
    var clouds := seq(3, i requires 0 <= i < 3 =>
                     Clouds.InitialCloud(draws[i], xs[i], ScreenWidth, ScreenHeight));
    World(Bird.Start(), [], clouds, 0, loadedHigh, true, true)
  }

  /** The restart transition: player, pipes and score reset; clouds and the
      high score kept. */
  function Restart(w: World): (r: World)
    ensures r.active && r.pipes == [] && r.score == 0 && r.player == Bird.Start()
    ensures r.clouds == w.clouds && r.highScore == w.highScore && r.running == w.running
    ensures (forall i :: 0 <= i < |w.clouds| ==> Clouds.Drifting(w.clouds[i])) ==> Inv(r)
  {
    w.(active := true, pipes := [], player := Bird.Start(), score := 0)
  }

  /** One event of the queue. Only a quit touches the running flag, only a
      cloud spawn asks for anything, and only an action key touches the
      player, the score or the active flag. */
  function HandleEvent(w: World, e: Event): (r: Outcome)
    requires ValidEvent(e)
    ensures r.world.highScore == w.highScore
    ensures r.world.running == (w.running && !e.Quit?)
    ensures r.effects == if w.active && e.CloudTimer? then [RearmCloudTimer(e.nextDelay)] else []
    ensures !IsActionKey(e) ==> && r.world.player == w.player && r.world.score == w.score
                                && r.world.active == w.active
    ensures IsActionKey(e) ==> r.world.active && r.world.clouds == w.clouds
    ensures !e.PipeTimer? && !e.CloudTimer? && !IsActionKey(e) ==>
              r.world.pipes == w.pipes && r.world.clouds == w.clouds
  {
    match e
    case Quit => Outcome(w.(running := false), [])
    case KeyDown(k) =>
      if k == OtherKey then Outcome(w, [])
      else if w.active then Outcome(w.(player := Bird.Jump(w.player)), [])
      else Outcome(Restart(w), [])
    case PipeTimer(c) =>
      if w.active
      then Outcome(w.(pipes := w.pipes + [Pipes.NewPipe(ScreenWidth, ScreenHeight, c)]), [])
      else Outcome(w, [])
    case CloudTimer(d, delay) =>
      if w.active
      then Outcome(w.(clouds := w.clouds + [Clouds.NewCloud(d, ScreenWidth, ScreenHeight)]),
                 [RearmCloudTimer(delay)])
      else Outcome(w, [])
    case OtherEvent => Outcome(w, [])
  }

  /** The event loop of one frame, in queue order. */
  function HandleEvents(w: World, es: seq<Event>): (r: Outcome)
    requires ValidEvents(es)
    ensures Inv(w) ==> Inv(r.world)
    ensures r.world.highScore == w.highScore
    ensures r.world.score == w.score || r.world.score == 0
    ensures forall i :: 0 <= i < |r.effects| ==> r.effects[i].RearmCloudTimer?
    ensures r.world.running == (w.running && Quit !in es)
    decreases |es|
  {
    if |es| == 0 then Outcome(w, [])
    else
      assert es == [es[0]] + es[1..];
      HandleEventKeepsInv(w, es[0]);
      var f := HandleEvent(w, es[0]);
      var g := HandleEvents(f.world, es[1..]);
      Outcome(g.world, f.effects + g.effects)
  }

  lemma HandleEventKeepsInv(w: World, e: Event)
    requires ValidEvent(e)
    ensures Inv(w) ==> Inv(HandleEvent(w, e).world)
  {
    if Inv(w) && e.PipeTimer? && w.active {
      var ps := HandleEvent(w, e).world.pipes;
      assert ps == w.pipes + [Pipes.NewPipe(ScreenWidth, ScreenHeight, e.gapCentre)];
      assert forall i :: 0 <= i < |w.pipes| ==> ps[i] == w.pipes[i];
    }
  }

  /** The values saved among `effects` strictly increase. */
  predicate SavesIncrease(effects: seq<Effect>) {
    forall i, j :: 0 <= i < j < |effects| && effects[i].SaveHighScore? && effects[j].SaveHighScore? ==>
      effects[i].value < effects[j].value
  }

  function SaveEffects(values: seq<int>): (r: seq<Effect>)
    ensures |r| == |values|
    ensures forall i :: 0 <= i < |values| ==> r[i] == SaveHighScore(values[i])
  {
    seq(|values|, i requires 0 <= i < |values| => SaveHighScore(values[i]))
  }

  /** The frame is over for the player: a tolerant hit on a pipe, or the
      sprite rectangle above the top of the screen or touching its bottom. */
  predicate GameOver(box: Rect, pipes: seq<Pipes.Pipe>) {
    Collision.CheckCollision(box, pipes) || box.top < 0 || box.Bottom() >= ScreenHeight
  }

  /** The simulation half of a frame. While game over nothing moves; while
      active the player, clouds and pipes advance, pipes score and both lists
      are pruned before the game-over test. */
  function Simulate(w: World, rotated: Size): (r: Outcome)
    requires Bird.RotatedSize(rotated)
    ensures !w.active ==> r == Outcome(w, [])
    ensures w.active ==> (r.world.active <==> !GameOver(r.world.player.box, r.world.pipes))
    ensures w.active ==> r.world.score >= w.score
    ensures w.active ==> r.world.highScore == if r.world.score == w.score then w.highScore
                                              else Max(w.highScore, r.world.score)
    ensures w.active ==> forall i :: 0 <= i < |r.world.pipes| ==> Pipes.OnScreen(r.world.pipes[i])
    ensures w.active ==> forall i :: 0 <= i < |r.world.clouds| ==> Clouds.Visible(r.world.clouds[i])
  {
    if !w.active then Outcome(w, [])
    else
      var p := Bird.Update(w.player, rotated);
      var clouds := Clouds.PruneClouds(Clouds.AdvanceAll(w.clouds));
      var pass := Pipes.ProcessPipes(w.pipes, p.box.left, Pipes.Tally(w.score, w.highScore));
      var pipes := Pipes.PrunePipes(pass.pipes);
      var over := GameOver(p.box, pipes);
      Outcome(World(p, pipes, clouds, pass.tally.score, pass.tally.high, !over, w.running),
            SaveEffects(pass.saves))
  }

  /** One iteration of the main loop. `rotated` is the size of the player's
      sprite after this frame's rotation. */
  function Step(w: World, es: seq<Event>, rotated: Size): (r: Outcome)
    requires ValidEvents(es) && Bird.RotatedSize(rotated)
    ensures Inv(w) ==> Inv(r.world)
    ensures r.world.running == (w.running && Quit !in es)
  {
    var f := HandleEvents(w, es);
    SimulateKeepsInv(f.world, rotated);
    var g := Simulate(f.world, rotated);
    Outcome(g.world, f.effects + g.effects)
  }

  // ---------------------------------------------------------------------
  // Properties of single events

  /** An action key while active sets the velocity to the jump strength and
      changes nothing else. */
  lemma ActionKeyJumps(w: World, k: Key)
    requires w.active && k != OtherKey
    ensures HandleEvent(w, KeyDown(k))
            == Outcome(w.(player := w.player.(velocity := Bird.JumpStrength)), [])
  {
  }

  /** An action key after game over restarts: active again, no pipes, the
      player back at its start with no velocity or tilt, score zero; the
      clouds, the high score and the running flag are untouched. */
  lemma ActionKeyRestarts(w: World, k: Key)
    requires !w.active && k != OtherKey
    ensures var r := HandleEvent(w, KeyDown(k));
            && r.effects == []
            && r.world.active && r.world.pipes == [] && r.world.score == 0
            && r.world.player == Bird.Start()
            && r.world.player.x == Bird.StartX && r.world.player.y == Bird.StartY as real
            && r.world.player.velocity == 0.0 && r.world.player.angle == 0.0
            && r.world.clouds == w.clouds && r.world.highScore == w.highScore
            && r.world.running == w.running
  {
  }

  /** While active, a pipe timer appends the pipe built from its drawn gap
      centre at the right edge, and a cloud timer appends the cloud built from
      its draws and re-arms itself with the drawn delay; nothing else changes.
      After game over neither does anything. */
  lemma SpawnOnlyWhileActive(w: World, e: Event)
    requires ValidEvent(e) && (e.PipeTimer? || e.CloudTimer?)
    ensures w.active && e.PipeTimer? ==>
              HandleEvent(w, e)
              == Outcome(w.(pipes := w.pipes + [Pipes.NewPipe(ScreenWidth, ScreenHeight, e.gapCentre)]), [])
    ensures w.active && e.CloudTimer? ==>
              HandleEvent(w, e)
              == Outcome(w.(clouds := w.clouds + [Clouds.NewCloud(e.draw, ScreenWidth, ScreenHeight)]),
                         [RearmCloudTimer(e.nextDelay)])
    ensures !w.active ==> HandleEvent(w, e) == Outcome(w, [])
  {
  }

  // ---------------------------------------------------------------------
  // Properties of whole frames

  /** After game over, a frame without an action key changes nothing but the
      running flag (a quit event still ends the loop) and asks for nothing. */
  lemma {:induction false} EventsWhileOver(w: World, es: seq<Event>)
    requires !w.active && ValidEvents(es)
    requires forall i :: 0 <= i < |es| ==> !IsActionKey(es[i])
    ensures HandleEvents(w, es) == Outcome(w.(running := w.running && Quit !in es), [])
    decreases |es|
  {
    if |es| > 0 {
      var f := HandleEvent(w, es[0]);
      assert f.world == w.(running := w.running && es[0] != Quit);
      assert ValidEvents(es[1..]);
      EventsWhileOver(f.world, es[1..]);
      assert Quit in es <==> es[0] == Quit || Quit in es[1..] by {
        assert es == [es[0]] + es[1..];
      }
    }
  }

  lemma FrozenWhileOver(w: World, es: seq<Event>, rotated: Size)
    requires !w.active && ValidEvents(es) && Bird.RotatedSize(rotated)
    requires forall i :: 0 <= i < |es| ==> !IsActionKey(es[i])
    ensures Step(w, es, rotated) == Outcome(w.(running := w.running && Quit !in es), [])
  {
    EventsWhileOver(w, es);
  }

  /** The simulation half of a frame keeps the world invariant. */
  lemma SimulateKeepsInv(w: World, rotated: Size)
    requires Bird.RotatedSize(rotated)
    ensures Inv(w) ==> Inv(Simulate(w, rotated).world)
  {
    if !Inv(w) || !w.active {
      return;
    }
    var p := Bird.Update(w.player, rotated);
    var t := Pipes.Tally(w.score, w.highScore);
    Pipes.FrameKeepsWellFormed(w.pipes, p.box.left, t, ScreenHeight);
    Clouds.FrameKeepsDrifting(w.clouds);
    SimulateEntities(w, rotated);
    SimulateScoring(w, rotated);
  }

  /** Where an active frame's player, pipes and clouds come from. */
  lemma SimulateEntities(w: World, rotated: Size)
    requires w.active && Bird.RotatedSize(rotated)
    ensures var p := Bird.Update(w.player, rotated);
            var pass := Pipes.ProcessPipes(w.pipes, p.box.left, Pipes.Tally(w.score, w.highScore));
            var r := Simulate(w, rotated).world;
            && r.player == p
            && r.pipes == Pipes.PrunePipes(pass.pipes)
            && r.clouds == Clouds.PruneClouds(Clouds.AdvanceAll(w.clouds))
            && (r.active ==> 0 <= r.player.box.top)
  {
  }

  /** In every reachable active world the previous sprite rectangle is inside
      the top of the screen, so the ceiling test of the player's update never
      fires: a frame that does not hit the floor adds exactly the gravity. */
  lemma CeilingTestNeverFires(w: World, rotated: Size)
    requires Inv(w) && w.active && Bird.RotatedSize(rotated)
    requires w.player.y + w.player.velocity + Bird.Gravity <= Bird.FloorY(w.player) as real
    ensures Simulate(w, rotated).world.player.velocity == w.player.velocity + Bird.Gravity
  {
  }

  /** The high score never drops; it changes only to the new score; and every
      value saved in the frame beats the previous high score, each save beats
      the one before it, and the last one is the new high score. */
  lemma StepHighScore(w: World, es: seq<Event>, rotated: Size)
    requires Inv(w) && ValidEvents(es) && Bird.RotatedSize(rotated)
    ensures var r := Step(w, es, rotated);
            && r.world.highScore >= w.highScore
            && (r.world.highScore == w.highScore || r.world.highScore == r.world.score)
            && (forall i :: 0 <= i < |r.effects| && r.effects[i].SaveHighScore? ==>
                  w.highScore < r.effects[i].value <= r.world.highScore)
            && SavesIncrease(r.effects)
            && (r.world.highScore != w.highScore ==>
                  r.effects[|r.effects| - 1] == SaveHighScore(r.world.highScore))
  {
    var f := HandleEvents(w, es);
    var g := Simulate(f.world, rotated);
    assert Step(w, es, rotated) == Outcome(g.world, f.effects + g.effects);
    if f.world.active {
      SimulateHighScore(f.world, rotated);
    }
    SavesAfterTimers(f.effects, g.effects, w.highScore, g.world.highScore);
  }

  /** Timer re-arms followed by saves: the saves keep their bounds and their
      order, and the last one stays last. */
  lemma SavesAfterTimers(timers: seq<Effect>, saves: seq<Effect>, lo: int, hi: int)
    requires forall i :: 0 <= i < |timers| ==> timers[i].RearmCloudTimer?
    requires forall i :: 0 <= i < |saves| ==> saves[i].SaveHighScore? && lo < saves[i].value <= hi
    requires forall i, j :: 0 <= i < j < |saves| ==> saves[i].value < saves[j].value
    ensures forall i :: 0 <= i < |timers + saves| && (timers + saves)[i].SaveHighScore? ==>
              lo < (timers + saves)[i].value <= hi
    ensures SavesIncrease(timers + saves)
    ensures |saves| > 0 ==> (timers + saves)[|timers + saves| - 1] == saves[|saves| - 1]
  {
  }

  lemma SimulateHighScore(w: World, rotated: Size)
    requires Inv(w) && w.active && Bird.RotatedSize(rotated)
    ensures var g := Simulate(w, rotated);
            && g.world.highScore >= w.highScore
            && (g.world.highScore == w.highScore || g.world.highScore == g.world.score)
            && (forall i :: 0 <= i < |g.effects| ==>
                  g.effects[i].SaveHighScore? && w.highScore < g.effects[i].value <= g.world.highScore)
            && (forall i, j :: 0 <= i < j < |g.effects| ==> g.effects[i].value < g.effects[j].value)
            && (g.world.highScore != w.highScore ==>
                  |g.effects| > 0 && g.effects[|g.effects| - 1] == SaveHighScore(g.world.highScore))
  {
    var p := Bird.Update(w.player, rotated);
    var t := Pipes.Tally(w.score, w.highScore);
    var pass := Pipes.ProcessPipes(w.pipes, p.box.left, t);
    Pipes.PassHighScore(w.pipes, p.box.left, t);
    SimulateScoring(w, rotated);
    SavedValues(pass.saves, w.highScore, pass.tally.high);
  }

  /** How an active frame's score, high score and effects come from the pipe loop. */
  lemma SimulateScoring(w: World, rotated: Size)
    requires w.active && Bird.RotatedSize(rotated)
    ensures var pass := Pipes.ProcessPipes(w.pipes, Bird.Update(w.player, rotated).box.left,
                                           Pipes.Tally(w.score, w.highScore));
            var g := Simulate(w, rotated);
            g.world.score == pass.tally.score && g.world.highScore == pass.tally.high
            && g.effects == SaveEffects(pass.saves)
  {
  }

  /** Save effects for values in (lo, hi], with the last value kept last. */
  lemma SavedValues(values: seq<int>, lo: int, hi: int)
    requires forall i :: 0 <= i < |values| ==> lo < values[i] <= hi
    ensures forall i :: 0 <= i < |values| ==>
              SaveEffects(values)[i].SaveHighScore? && lo < SaveEffects(values)[i].value <= hi
    ensures |values| > 0 ==> SaveEffects(values)[|values| - 1] == SaveHighScore(values[|values| - 1])
    ensures (forall i, j :: 0 <= i < j < |values| ==> values[i] < values[j]) ==>
              forall i, j :: 0 <= i < j < |values| ==>
                SaveEffects(values)[i].value < SaveEffects(values)[j].value
  {
  }

  // ---------------------------------------------------------------------
  // Whole sessions

  datatype FrameInput = FrameInput(events: seq<Event>, rotated: Size)

  predicate ValidInputs(inputs: seq<FrameInput>) {
    forall i :: 0 <= i < |inputs| ==>
      ValidEvents(inputs[i].events) && Bird.RotatedSize(inputs[i].rotated)
  }

  /** The world after running the given frames. */
  function Session(w: World, inputs: seq<FrameInput>): World
    requires ValidInputs(inputs)
    decreases |inputs|
  {
    if |inputs| == 0 then w
    else Session(Step(w, inputs[0].events, inputs[0].rotated).world, inputs[1..])
  }

  /** The best score shown at the end of any frame of the session. */
  function BestScore(w: World, inputs: seq<FrameInput>): int
    requires ValidInputs(inputs)
    decreases |inputs|
  {
    if |inputs| == 0 then w.score
    else
      var next := Step(w, inputs[0].events, inputs[0].rotated).world;
      Max(w.score, BestScore(next, inputs[1..]))
  }

  /** Over a session the high score ends as the larger of the loaded value
      and the best score reached. */
  lemma {:induction false} SessionHighScore(w: World, inputs: seq<FrameInput>)
    requires Inv(w) && 0 <= w.highScore && ValidInputs(inputs)
    ensures Session(w, inputs).highScore == Max(w.highScore, BestScore(w, inputs))
    decreases |inputs|
  {
    if |inputs| > 0 {
      var next := Step(w, inputs[0].events, inputs[0].rotated).world;
      StepHighScore(w, inputs[0].events, inputs[0].rotated);
      SessionHighScore(next, inputs[1..]);
    }
  }
}

=== FILE: geometry.dfy ===
/** Integer screen rectangles with the parts of pygame's Rect the game uses:
    centring, inflate and the overlap test. */
module Geometry {

  /** Size of a sprite surface in pixels. */
  datatype Size = Size(width: nat, height: nat)

  /** An axis-aligned rectangle: top-left corner and size. */
  datatype Rect = Rect(left: int, top: int, width: int, height: int) {
    function Right(): int { left + width }
    function Bottom(): int { top + height }

    /** Pixel (x, y) lies inside; the right and bottom edges are excluded. */
    predicate Covers(x: int, y: int) {
      left <= x < Right() && top <= y < Bottom()
    }

    /** `inner` lies within this rectangle. */
    predicate Contains(inner: Rect) {
      left <= inner.left && inner.Right() <= Right() &&
      top <= inner.top && inner.Bottom() <= Bottom()
    }
  }

  function Max(a: int, b: int): int { if a < b then b else a }

  /** Integer halving that truncates toward zero, as C's `n / 2`. */
  function HalfTowardZero(n: int): (h: int)
    ensures 0 <= n ==> 0 <= n - 2 * h <= 1
    ensures n < 0 ==> -1 <= n - 2 * h <= 0
  {
    if n >= 0 then n / 2 else -((-n) / 2)
  }

  /** Python's `int(x)` on a float: truncation toward zero. */
  function Trunc(x: real): (n: int)
    ensures 0.0 <= x ==> n as real <= x < n as real + 1.0
    ensures x < 0.0 ==> n as real - 1.0 < x <= n as real
  {
    if x >= 0.0 then x.Floor else -((-x).Floor)
  }

  /** `get_rect(center = (cx, cy))` on a surface of size `s`. */
  function CenteredAt(cx: int, cy: int, s: Size): (r: Rect)
    ensures r.width == s.width && r.height == s.height
    ensures 0 <= 2 * r.left + r.width - 2 * cx <= 1
    ensures 0 <= 2 * r.top + r.height - 2 * cy <= 1
  {
    Rect(cx - s.width / 2, cy - s.height / 2, s.width, s.height)
  }

  /** `Rect.inflate(dx, dy)`: grows the size by (dx, dy) and keeps the centre,
      up to the rounding of the half-amount. */
  function Inflate(r: Rect, dx: int, dy: int): (s: Rect)
    ensures s.width == r.width + dx && s.height == r.height + dy
    ensures -1 <= (s.left + s.Right()) - (r.left + r.Right()) <= 1
    ensures -1 <= (s.top + s.Bottom()) - (r.top + r.Bottom()) <= 1
  {
    Rect(r.left - HalfTowardZero(dx), r.top - HalfTowardZero(dy), r.width + dx, r.height + dy)
  }

  /** `Rect.colliderect`: two non-empty rectangles whose interiors intersect;
      rectangles that only share an edge do not collide. */
  predicate Overlaps(a: Rect, b: Rect) {
    a.width > 0 && a.height > 0 && b.width > 0 && b.height > 0 &&
    a.left < b.Right() && b.left < a.Right() &&
    a.top < b.Bottom() && b.top < a.Bottom()
  }

  /** The overlap test agrees with its pixel meaning: some pixel is covered by both. */
  lemma OverlapsIffSharedPixel(a: Rect, b: Rect)
    ensures Overlaps(a, b) <==> exists x, y :: a.Covers(x, y) && b.Covers(x, y)
  {
    if Overlaps(a, b) {
      var x, y := Max(a.left, b.left), Max(a.top, b.top);
      assert a.Covers(x, y) && b.Covers(x, y);
    }
  }

  /** Shrinking (inflating by non-positive amounts) never leaves the original box. */
  lemma ShrinkStaysInside(r: Rect, dx: int, dy: int)
    requires dx <= 0 && dy <= 0
    ensures r.Contains(Inflate(r, dx, dy))
  {
  }

  /** Overlap of boxes inside two rectangles implies overlap of the rectangles. */
  lemma OverlapWithinContainers(a: Rect, inA: Rect, b: Rect, inB: Rect)
    requires a.Contains(inA) && b.Contains(inB)
    requires Overlaps(inA, inB)
    ensures Overlaps(a, b)
  {
  }
}

=== FILE: physics.dfy ===
/** The physics demo of main.py: a ball under gravity that jumps on any key
    and rests on the floor. */
module Physics {

  const ScreenWidth: int := 600
  const ScreenHeight: int := 400
  const Gravity: real := 0.5
  const JumpStrength: real := -10.0

  datatype Ball = Ball(x: int, y: real, radius: int, velocity: real)

  datatype Event = Quit | KeyDown | OtherEvent

  /** The ball as created by the demo. */
  function Start(): (b: Ball)
    ensures b.x == 150 && b.radius == 20 && b.velocity == 0.0
    ensures b.y < FloorY(b) && !AtRest(b)
  {
    Ball(ScreenWidth / 4, (ScreenHeight / 2) as real, 20, 0.0)
  }

  function ApplyGravity(b: Ball): Ball {
    b.(velocity := b.velocity + Gravity)
  }

  function Jump(b: Ball): Ball {
    b.(velocity := JumpStrength)
  }

  /** Lowest centre height at which the ball still lies on screen. */
  function FloorY(b: Ball): real {
    (ScreenHeight - b.radius) as real
  }

  /** One frame: gravity first, then the move, then the floor clamp. */
  function Update(b: Ball): (r: Ball)
    ensures r.x == b.x && r.radius == b.radius
    ensures r.y <= FloorY(b)
    ensures b.y + b.velocity + Gravity > FloorY(b) ==> r.y == FloorY(b) && r.velocity == 0.0
  {
    var g := ApplyGravity(b);
    var moved := g.(y := g.y + g.velocity);
    if moved.y > FloorY(b) then moved.(y := FloorY(b), velocity := 0.0) else moved
  }

  /** The event loop of one frame: every key press jumps. */
  function HandleEvents(b: Ball, es: seq<Event>): (r: Ball)
    ensures KeyDown in es ==> r == Jump(b)
    ensures KeyDown !in es ==> r == b
    decreases |es|
  {
    if |es| == 0 then b
    else
      assert es == [es[0]] + es[1..];
      HandleEvents(if es[0] == KeyDown then Jump(b) else b, es[1..])
  }

  /** One iteration of the demo's loop: the queued events, then the physics.
      Without a key press it is one frame of `Run`; with one, a ball that
      stays clear of the floor ends the frame moving up at 9.5. */
  function Tick(b: Ball, es: seq<Event>): (r: Ball)
    ensures r.x == b.x && r.radius == b.radius && r.y <= FloorY(b)
    ensures KeyDown !in es ==> r == Run(b, 1)
    ensures KeyDown in es && b.y + JumpStrength + Gravity <= FloorY(b) ==>
              r.velocity == -9.5 && r.y == b.y - 9.5
  {
    Update(HandleEvents(b, es))
  }

  /** `n` frames without input. */
  function Run(b: Ball, n: nat): Ball
    decreases n
  {
    if n == 0 then b else Run(Update(b), n - 1)
  }

  predicate AtRest(b: Ball) {
    b.y == FloorY(b) && b.velocity == 0.0
  }

  /** A jump sets the velocity to the jump strength whatever it was before. */
  lemma JumpOverwrites(b: Ball, v: real)
    ensures Jump(b.(velocity := v)) == Jump(b)
    ensures Jump(b).velocity == JumpStrength
  {
  }

  /** Gravity is applied before the move: away from the floor, a frame adds
      0.5 to the velocity and then moves by the increased velocity. */
  lemma GravityBeforeMove(b: Ball)
    requires b.y + b.velocity + Gravity <= FloorY(b)
    ensures Update(b).velocity == b.velocity + Gravity
    ensures Update(b).y == b.y + (b.velocity + Gravity)
  {
  }

  /** Resting on the floor is a fixed point of the physics. */
  lemma RestIsFixedPoint(b: Ball)
    requires AtRest(b)
    ensures Update(b) == b
  {
  }

  lemma {:induction false} RestStaysRest(b: Ball, n: nat)
    requires AtRest(b)
    ensures Run(b, n) == b
    decreases n
  {
    if n > 0 {
      RestIsFixedPoint(b);
      RestStaysRest(b, n - 1);
    }
  }

  /** Until the clamp engages, the velocity grows by exactly 0.5 per frame. */
  lemma {:induction false} FreeFall(b: Ball, n: nat)
    requires forall k: nat :: k < n ==> !ClampsNext(Run(b, k))
    ensures Run(b, n).velocity == b.velocity + (n as real) * Gravity
    ensures Run(b, n).x == b.x && Run(b, n).radius == b.radius
    decreases n
  {
    if n > 0 {
      assert !ClampsNext(Run(b, 0));
      forall k: nat | k < n - 1
        ensures !ClampsNext(Run(Update(b), k))
      {
        assert !ClampsNext(Run(b, k + 1));
      }
      FreeFall(Update(b), n - 1);
    }
  }

  /** The next frame hits the floor. */
  predicate ClampsNext(b: Ball) {
    b.y + b.velocity + Gravity > FloorY(b)
  }

  /** The demo's ball, left alone, falls and comes to rest on the floor. */
  lemma StartComesToRest() returns (n: nat)
    ensures n > 0 && AtRest(Run(Start(), n))
  {
    n := EventuallyRests(Start());
  }

  /** Without input, a ball on screen comes to rest on the floor after finitely
      many frames. The quantity FloorY - y + velocity^2 drops by exactly 1/4
      on every frame that does not hit the floor and never goes negative. */
  lemma {:induction false} EventuallyRests(b: Ball) returns (n: nat)
    requires b.y <= FloorY(b)
    ensures AtRest(Run(b, n))
    decreases ((FloorY(b) - b.y + b.velocity * b.velocity) * 4.0).Floor
  {
    var u := Update(b);
    if ClampsNext(b) {
      assert Run(b, 1) == Run(u, 0);
      n := 1;
    } else {
      var v := b.velocity;
      assert u.velocity == v + Gravity && u.y == b.y + v + Gravity;
      assert (v + 0.5) * (v + 0.5) == v * v + v + 0.25;
      assert (FloorY(u) - u.y + u.velocity * u.velocity) * 4.0
          == (FloorY(b) - b.y + v * v) * 4.0 - 1.0;
      var m := EventuallyRests(u);
      assert Run(b, m + 1) == Run(u, m);
      n := m + 1;
    }
  }
}

=== FILE: pipes.dfy ===
/** Pipe pairs (class PipeManager of testfinal.py): geometry at creation, the
    per-frame advance, one-shot pass scoring with the high-score update, and
    pruning of pipes that have left the screen. */
module Pipes {
  import opened Geometry
  import Seqs

  const GapSize: int := 140
  const PipeWidth: int := 60
  const PipeSpeed: int := -3
  /** Smallest height either segment may have. */
  const Margin: int := 50

  /** A pipe pair: its x, the top and bottom segment rectangles, and whether
      the player has already scored on it. */
  datatype Pipe = Pipe(x: int, top: Rect, bottom: Rect, passed: bool)

  /** Bounds of the random gap centre for a screen of the given height. */
  function MinCentre(): int { Margin + GapSize / 2 }
  function MaxCentre(screenHeight: int): int { screenHeight - Margin - GapSize / 2 }

  /** The geometry every pipe keeps: segments aligned with the pipe's x, the
      top one hanging from y = 0, the gap exactly GapSize, the bottom one
      reaching the bottom of the screen, both at least Margin high. */
  predicate WellFormed(p: Pipe, screenHeight: int) {
    && p.top.left == p.x && p.bottom.left == p.x
    && p.top.width == PipeWidth && p.bottom.width == PipeWidth
    && p.top.top == 0
    && p.bottom.top == p.top.height + GapSize
    && p.top.height + GapSize + p.bottom.height == screenHeight
    && p.top.height >= Margin && p.bottom.height >= Margin
  }

  /** A new pipe at `startX` whose gap is centred on `centre`, a value the
      game draws uniformly from [MinCentre(), MaxCentre(screenHeight)]. */
  function NewPipe(startX: int, screenHeight: int, centre: int): (p: Pipe)
    requires MinCentre() <= centre <= MaxCentre(screenHeight)
    ensures p.x == startX && !p.passed
    ensures p.top.height == centre - GapSize / 2
    ensures p.bottom.top == centre + GapSize / 2
    ensures WellFormed(p, screenHeight)
  {
    var topHeight := centre - GapSize / 2;
    var bottomY := centre + GapSize / 2;
    Pipe(startX, Rect(startX, 0, PipeWidth, topHeight),
         Rect(startX, bottomY, PipeWidth, screenHeight - bottomY), false)
  }

  /** The documented example: a gap centred at 200 on a 400-pixel screen
      leaves segments of 130, the bottom one starting at 270. */
  lemma CentreTwoHundred()
    ensures NewPipe(800, 400, 200).top.height == 130
    ensures NewPipe(800, 400, 200).bottom.top == 270
    ensures NewPipe(800, 400, 200).bottom.height == 130
  {
  }

  /** One frame of `update`: the pipe moves by PipeSpeed and both segments follow. */
  function Advance(p: Pipe): (r: Pipe)
    ensures r.x == p.x + PipeSpeed
    ensures r.top.left == r.x && r.bottom.left == r.x
    ensures r.top.(left := 0) == p.top.(left := 0)
    ensures r.bottom.(left := 0) == p.bottom.(left := 0)
    ensures r.passed == p.passed
  {
    var x := p.x + PipeSpeed;
    p.(x := x, top := p.top.(left := x), bottom := p.bottom.(left := x))
  }

  lemma AdvanceKeepsWellFormed(p: Pipe, screenHeight: int)
    requires WellFormed(p, screenHeight)
    ensures WellFormed(Advance(p), screenHeight)
  {
  }

  /** The pipe (already advanced this frame) scores now: not yet passed and
      the player's left edge is beyond the top segment's right edge. */
  predicate Crossed(q: Pipe, playerLeft: int) {
    !q.passed && playerLeft > q.top.Right()
  }

  /** Score and high score. */
  datatype Tally = Tally(score: int, high: int)

  /** One scoring event: the score rises by one, and if it now beats the high
      score the high score follows. */
  function Award(t: Tally): Tally {
    var s := t.score + 1;
    Tally(s, if s > t.high then s else t.high)
  }

  /** The scoring event `Award(t)` beats the high score, so the save file is written. */
  predicate IsRecord(t: Tally) {
    t.score + 1 > t.high
  }

  /** The integers lo, lo + 1, ..., hi - 1. */
  function Range(lo: int, hi: int): (r: seq<int>)
    decreases hi - lo
  {
    if lo >= hi then [] else [lo] + Range(lo + 1, hi)
  }

  /** Number of pipes that score in this frame. */
  function CountCrossed(pipes: seq<Pipe>, playerLeft: int): nat {
    if |pipes| == 0 then 0
    else (if Crossed(Advance(pipes[0]), playerLeft) then 1 else 0)
         + CountCrossed(pipes[1..], playerLeft)
  }

  /** The pipes after a frame, the tally, and the values written to the save
      file during the frame, in order. */
  datatype PipePass = PipePass(pipes: seq<Pipe>, tally: Tally, saves: seq<int>)

  /** The loop over the live pipes in one active frame: each pipe advances,
      then scores if it is crossed, in list order. */
  function ProcessPipes(pipes: seq<Pipe>, playerLeft: int, t: Tally): (r: PipePass)
    ensures |r.pipes| == |pipes|
    ensures forall i :: 0 <= i < |pipes| ==>
              r.pipes[i] == Advance(pipes[i]).(passed := pipes[i].passed
                                                 || playerLeft > Advance(pipes[i]).top.Right())
    ensures r.tally.score == t.score + CountCrossed(pipes, playerLeft)
    ensures r.tally.high == if CountCrossed(pipes, playerLeft) == 0 then t.high
                            else Max(t.high, r.tally.score)
    ensures r.saves == Range(Max(t.high, t.score) + 1, r.tally.score + 1)
  {
    if |pipes| == 0 then PipePass([], t, [])
    else
      var q := Advance(pipes[0]);
      var crossed := Crossed(q, playerLeft);
      var rest := ProcessPipes(pipes[1..], playerLeft, if crossed then Award(t) else t);
      var saved := if crossed && IsRecord(t) then [t.score + 1] else [];
      AwardSaves(t, rest.tally.score + 1);
      PipePass([if crossed then q.(passed := true) else q] + rest.pipes, rest.tally, saved + rest.saves)
  }

  /** The high score of a frame never drops and only ever becomes the score;
      every saved value beats the old high score, the values saved are strictly
      increasing, and the last one is the new high score. */
  lemma PassHighScore(pipes: seq<Pipe>, playerLeft: int, t: Tally)
    requires t.score == 0 || t.score <= t.high
    ensures var r := ProcessPipes(pipes, playerLeft, t);
            && r.tally.high >= t.high
            && (r.tally.high == t.high || r.tally.high == r.tally.score)
            && (forall i :: 0 <= i < |r.saves| ==> t.high < r.saves[i] <= r.tally.high)
            && (forall i, j :: 0 <= i < j < |r.saves| ==> r.saves[i] < r.saves[j])
            && (r.tally.high != t.high ==> |r.saves| > 0 && r.saves[|r.saves| - 1] == r.tally.high)
  {
    var r := ProcessPipes(pipes, playerLeft, t);
    var lo := Max(t.high, t.score) + 1;
    RangeFacts(lo, r.tally.score + 1);
    if CountCrossed(pipes, playerLeft) == 0 {
      assert r.tally.high == t.high && |r.saves| == 0;
    } else {
      assert r.tally.high == Max(t.high, r.tally.score);
      forall i | 0 <= i < |r.saves|
        ensures t.high < r.saves[i] <= r.tally.high
      {
        assert r.saves[i] == lo + i;
      }
      if r.tally.high != t.high {
        assert |r.saves| == r.tally.score + 1 - lo;
      }
    }
  }

  lemma {:induction false} RangeFacts(lo: int, hi: int)
    ensures |Range(lo, hi)| == if lo < hi then hi - lo else 0
    ensures forall i :: 0 <= i < |Range(lo, hi)| ==> Range(lo, hi)[i] == lo + i
    decreases hi - lo
  {
    if lo < hi {
      RangeFacts(lo + 1, hi);
    }
  }

  /** A scoring event saves its score exactly when that score is the next
      value above both the old score and the old high score. */
  lemma AwardSaves(t: Tally, hi: int)
    ensures hi > t.score + 1 ==>
              (if IsRecord(t) then [t.score + 1] else [])
                + Range(Max(Award(t).high, Award(t).score) + 1, hi)
              == Range(Max(t.high, t.score) + 1, hi)
  {
  }

  /** Still (partly) on screen: the right edge has not gone past x = 0. */
  predicate OnScreen(p: Pipe) {
    p.x + PipeWidth >= 0
  }

  /** Removal of the pipes whose right edge is left of the screen. */
  function PrunePipes(pipes: seq<Pipe>): (r: seq<Pipe>)
    ensures forall i :: 0 <= i < |r| ==> r[i] in pipes && r[i].x + PipeWidth >= 0
    ensures forall i :: 0 <= i < |pipes| && pipes[i].x + PipeWidth >= 0 ==> pipes[i] in r
  {
    Seqs.Filter(pipes, OnScreen)
  }

  /** A frame's loop and cleanup keep every pipe well formed. */
  lemma FrameKeepsWellFormed(pipes: seq<Pipe>, playerLeft: int, t: Tally, screenHeight: int)
    requires forall i :: 0 <= i < |pipes| ==> WellFormed(pipes[i], screenHeight)
    ensures var r := PrunePipes(ProcessPipes(pipes, playerLeft, t).pipes);
            forall i :: 0 <= i < |r| ==> WellFormed(r[i], screenHeight)
  {
    var pass := ProcessPipes(pipes, playerLeft, t);
    forall i | 0 <= i < |pass.pipes|
      ensures WellFormed(pass.pipes[i], screenHeight)
    {
      AdvanceKeepsWellFormed(pipes[i], screenHeight);
    }
  }

  /** Pruning keeps the survivors in their original order. */
  lemma PruneKeepsOrder(a: seq<Pipe>, b: seq<Pipe>)
    ensures PrunePipes(a + b) == PrunePipes(a) + PrunePipes(b)
  {
    Seqs.FilterConcat(a, b, OnScreen);
  }

  /** A run of frames over the same pipes with the player's left edge of each frame. */
  function Frames(pipes: seq<Pipe>, lefts: seq<int>, t: Tally): (r: PipePass)
    ensures |r.pipes| == |pipes|
    decreases |lefts|
  {
    if |lefts| == 0 then PipePass(pipes, t, [])
    else
      var step := ProcessPipes(pipes, lefts[0], t);
      var rest := Frames(step.pipes, lefts[1..], step.tally);
      PipePass(rest.pipes, rest.tally, step.saves + rest.saves)
  }

  /** Scoring is one-shot: over any run of frames a pipe adds at most one point,
      and it adds one exactly when its passed flag went from false to true. */
  lemma {:induction false} ScoresAtMostOnce(p: Pipe, lefts: seq<int>, t: Tally)
    ensures var r := Frames([p], lefts, t);
            (r.tally.score == t.score || r.tally.score == t.score + 1)
            && (r.tally.score == t.score + 1 <==> !p.passed && r.pipes[0].passed)
    decreases |lefts|
  {
    if |lefts| > 0 {
      var step := ProcessPipes([p], lefts[0], t);
      assert [p][1..] == [];
      ScoresAtMostOnce(step.pipes[0], lefts[1..], step.tally);
      assert [step.pipes[0]] == step.pipes;
      if step.pipes[0].passed {
        StaysPassed(step.pipes[0], lefts[1..], step.tally);
      }
    }
  }

  /** A passed pipe stays passed and never scores again. */
  lemma {:induction false} StaysPassed(p: Pipe, lefts: seq<int>, t: Tally)
    requires p.passed
    ensures Frames([p], lefts, t).pipes[0].passed
    ensures Frames([p], lefts, t).tally.score == t.score
    decreases |lefts|
  {
    if |lefts| > 0 {
      var step := ProcessPipes([p], lefts[0], t);
      assert [p][1..] == [];
      assert [step.pipes[0]] == step.pipes;
      StaysPassed(step.pipes[0], lefts[1..], step.tally);
    }
  }

  /** A fresh pipe crossed in the first frame scores exactly once however many
      frames follow. */
  lemma ScoresExactlyOnce(p: Pipe, lefts: seq<int>, t: Tally)
    requires !p.passed && |lefts| >= 1
    requires lefts[0] > Advance(p).top.Right()
    ensures Frames([p], lefts, t).tally.score == t.score + 1
  {
    var step := ProcessPipes([p], lefts[0], t);
    assert [p][1..] == [];
    assert [step.pipes[0]] == step.pipes;
    StaysPassed(step.pipes[0], lefts[1..], step.tally);
  }
}

=== FILE: seqs.dfy ===
/** Order-preserving filtering of entity lists, the shape of the game loop's
    "collect what is off screen, then remove it" pass. */
module Seqs {

  /** The elements of `s` that satisfy `keep`, in their original order. */
  function Filter<T(==)>(s: seq<T>, keep: T -> bool): (r: seq<T>)
    ensures |r| <= |s|
    ensures forall i :: 0 <= i < |r| ==> r[i] in s && keep(r[i])
    ensures forall i :: 0 <= i < |s| && keep(s[i]) ==> s[i] in r
  {
    if |s| == 0 then []
    else (if keep(s[0]) then [s[0]] else []) + Filter(s[1..], keep)
  }

  /** Filtering distributes over concatenation: what survives of a prefix
      stays ahead of what survives of the suffix. */
  lemma {:induction false} FilterConcat<T>(a: seq<T>, b: seq<T>, keep: T -> bool)
    ensures Filter(a + b, keep) == Filter(a, keep) + Filter(b, keep)
  {
    if |a| == 0 {
      assert a + b == b;
    } else {
      assert (a + b)[0] == a[0];
      assert (a + b)[1..] == a[1..] + b;
      FilterConcat(a[1..], b, keep);
    }
  }

  /** A list whose every element is kept passes through unchanged. */
  lemma {:induction false} FilterKeepsAll<T>(s: seq<T>, keep: T -> bool)
    requires forall i :: 0 <= i < |s| ==> keep(s[i])
    ensures Filter(s, keep) == s
  {
    if |s| > 0 {
      FilterKeepsAll(s[1..], keep);
    }
  }

  /** A second cleanup pass removes nothing more. */
  lemma FilterIdempotent<T>(s: seq<T>, keep: T -> bool)
    ensures Filter(Filter(s, keep), keep) == Filter(s, keep)
  {
    FilterKeepsAll(Filter(s, keep), keep);
  }
}
